=== FILE: README.md ===
# D-Day wall: tile validation, listing and cleanup

A Dafny model of the server logic of the D-Day countdown board. Users place
tiles on a 60 x 60 grid. Each tile has a title, a target date, a colour and a
like counter. The model covers three handlers:

- `POST /api/tiles` runs a chain of six field checks. The first check that
  fails decides the 400 message. A valid request becomes a five-field record
  for the store, and whatever the store throws is mapped to a status: a
  unique-constraint violation (code `P2002`) gives 409, anything else gives 500.
- `GET /api/tiles` keeps the tiles whose target date is on or after a cutoff
  (seven days ago). A `since` parameter that is supplied and parses adds
  `updated_at > since`. A `since` that is missing, empty or unparseable is
  ignored.
- `GET /api/cron` checks a bearer token. It then deletes every tile whose
  target date is before the cutoff and reports the count as
  `Successfully deleted N old tiles.`

Modules:

- `Wrappers` (`wrappers.dfy`): `Option` and `Result`.
- `Seqs` (`seqs.dfy`): an order-preserving `Filter` and its lemmas. These
  cover membership, subsequence, multiset partition, idempotence and
  extensionality. Both the store query and the delete are filters.
- `Text` (`text.dfy`): JavaScript string length in UTF-16 code units, and the
  decimal rendering of the deleted count.
- `Tiles` (`tiles.dfy`): the `Tile` record, date parameters, JSON responses and
  the two window predicates.
- `Validation` (`validation.dfy`): the creation checks.
- `TilesEndpoint` (`tiles_endpoint.dfy`): the listing and creation handlers.
- `CronEndpoint` (`cron_endpoint.dfy`): the cleanup job.

Timestamps are integers in milliseconds. A date that arrives as text is a
`DateParam`: either `Absent`, or the raw text together with what JavaScript's
`new Date(raw).getTime()` gives for it. That parse result is `None` when it
is `NaN`.

Points where the code says less, or something other, than its own messages
and names suggest:

- The 400 message says the title "cannot exceed 50 characters", but the code
  compares `title.length` (src/routes/api/tiles/+server.ts:48). That counts
  UTF-16 code units, so a character outside the Basic Multilingual Plane
  counts twice (`Text.Utf16Length`).
- The date checks (src/routes/api/tiles/+server.ts:63-74) never test that
  `target_date` parses. An unparseable date passes both comparisons and goes
  to the store (see Findings). `TilesEndpoint.CreateResponse` models the
  handler as written, with that behaviour. `TilesEndpoint.CreateResponseIntended`
  is the corrected handler built on `Validation.Validate`, which refuses such a
  date with 400. `TilesEndpoint.CreateHandlersAgreeOnParsedDates` and
  `TilesEndpoint.CreateHandlersDifferOnUnparsedDates` show that the two differ
  only on dates that do not parse.
- The handler never sets `likes`, `id` or the timestamps
  (src/routes/api/tiles/+server.ts:77-85). Their initial values come from the
  store schema, which is not part of this model.

## Model

| member | source | states |
|---|---|---|
| `Validation.Validate` | src/routes/api/tiles/+server.ts:42-85 | The corrected chain (see Findings), which refuses a date that does not parse where lines 68-74 let it through. Returns the reason of the first failing check, in the order presence, title length, coordinate range, colour, future date, one-year limit. That rule fails and every earlier rule holds. Success happens exactly when every rule holds, and the record then carries the input title, parsed date, coordinates and colour |
| `Validation.FieldFailure` | src/routes/api/tiles/+server.ts:43-61 | The four checks on the raw fields report the first rule that fails, and report nothing exactly when all four hold |
| `Validation.FieldsPresent` | src/routes/api/tiles/+server.ts:43 | Fields are present exactly when the title, date text and colour are defined with a non-zero JavaScript length, and both coordinates are defined, so 0 counts as present |
| `Validation.FirstFailureAsWritten` | src/routes/api/tiles/+server.ts:63-74 | The chain exactly as written, with `NaN` comparisons. When it passes, every field is present, and a date that did parse lies in `(now, oneYearFromNow]` |
| `Validation.UnparseableDateSlipsThrough` | src/routes/api/tiles/+server.ts:63-74 | Take an otherwise valid body and give it any non-empty `target_date` that does not parse. The chain as written passes it, and its record carries an invalid date. The intended chain refuses it as not in the future |
| `Validation.AsWrittenVersusIntended` | src/routes/api/tiles/+server.ts:42-74 | For every body, the chain as written reports nothing when all field checks pass and the date does not parse; otherwise it reports exactly the reason of the corrected chain, so a failing field check is reported even when the date does not parse |
| `Validation.AsWrittenAgreesOnParsedDates` | src/routes/api/tiles/+server.ts:68-74 | On dates that parse, the as-written chain and the intended chain give the same verdict |
| `Validation.MissingFieldDecides` | src/routes/api/tiles/+server.ts:43-45 | An absent field, an empty title or an empty colour gives "Missing required fields", whatever the other fields hold |
| `Validation.TitleLimit` | src/routes/api/tiles/+server.ts:43-50 | Start from a valid body and change only the title. The empty title counts as missing, a title over 50 UTF-16 units is too long, and any other title is accepted and stored as given |
| `Validation.TitleBoundary` | src/routes/api/tiles/+server.ts:48-50 | A title of 50 ASCII characters is accepted; one of 51 is refused as too long |
| `Validation.CoordinateRange` | src/routes/api/tiles/+server.ts:43-55 | Start from a valid body and change only the coordinates. They are accepted exactly when `0 <= x < 60` and `0 <= y < 60`, so 0 is a valid coordinate. Otherwise the reason is the coordinate message |
| `Validation.CoordinateExamples` | src/routes/api/tiles/+server.ts:53-55 | x = 60 and y = -1 are refused; x = 59 with y = 0, and x = 0, are accepted; an undefined x is missing |
| `Validation.HexRunThenEndMeans` | src/routes/api/tiles/+server.ts:58 | `[A-Fa-f0-9]{n}$` matches exactly the strings of length n made only of hex digits |
| `Validation.MatchesColorPattern` | src/routes/api/tiles/+server.ts:58-59 | The colour regular expression, read anchor, six-digit alternative, then three-digit alternative, matches exactly `#` followed by 3 or 6 hex digits |
| `Validation.ColorExamples` | src/routes/api/tiles/+server.ts:58-61 | `#abc`, `#AABBCC` and `#aabbcc` match; `#ZZZZZZ`, `#abcd` and `abc` do not |
| `Validation.ColorDecides` | src/routes/api/tiles/+server.ts:58-61 | Start from a valid body and change only the colour, to a non-empty value. It is accepted exactly when it is a hex colour, and otherwise refused with the colour message |
| `Validation.DateWindow` | src/routes/api/tiles/+server.ts:63-74 | Start from a valid body and change only the target date, to one that parses. It is accepted exactly when `now < d <= oneYearFromNow`. A date at or before now is not in the future, and a date after the bound is too far ahead |
| `Validation.ColorAndDateExamples` | src/routes/api/tiles/+server.ts:58-74 | Concrete cases: target = now is refused, target = the one-year bound is accepted, one past it is refused, and an unparseable date passes the as-written chain |
| `Text.Utf16Length` | src/routes/api/tiles/+server.ts:48 | JavaScript's `length` is between the character count and twice it, and is 0 only for the empty string |
| `Text.BmpLength` | src/routes/api/tiles/+server.ts:48 | For text in the Basic Multilingual Plane, `length` equals the character count |
| `Text.Decimal` | src/routes/api/cron/+server.ts:29 | The rendered count is a non-empty string of digits with no leading zero |
| `Text.DecimalRoundTrip` | src/routes/api/cron/+server.ts:29 | Reading the rendered count back gives the count |
| `Text.DecimalInjective` | src/routes/api/cron/+server.ts:29 | Different counts are rendered differently |
| `Seqs.Filter` | src/routes/api/tiles/+server.ts:27-29 | A result is exactly an input element that satisfies the predicate, and the result is no longer than the input |
| `Seqs.FilterIsSubsequence` | src/routes/api/cron/+server.ts:21-27 | Filtering keeps the relative order of the input |
| `Seqs.FilterPartition` | src/routes/api/cron/+server.ts:21-27 | A predicate and its complement split the input into two parts that together make up the input multiset |
| `Seqs.FilterMultiplicity` | src/routes/api/cron/+server.ts:21-27 | Filtering keeps every copy of each element that satisfies the predicate and no copy of any other |
| `Seqs.FilterIdempotent` | src/routes/api/cron/+server.ts:21-27 | Filtering twice by the same predicate is the same as filtering once |
| `Tiles.ExpiredIsOutsideListWindow` | src/routes/api/cron/+server.ts:24 | For the same cutoff, `target_date < cutoff` is the exact complement of the listing's `target_date >= cutoff` |
| `TilesEndpoint.ListTiles` | src/routes/api/tiles/+server.ts:12-29 | Every returned tile is stored and has `target_date >= cutoff`, and with a usable `since` it also has `updated_at > since`. Every stored tile meeting those conditions is returned with all its copies, no other tile is returned, and the stored order is kept |
| `TilesEndpoint.UnusableSinceIgnored` | src/routes/api/tiles/+server.ts:18-25 | An absent, empty or unparseable `since` gives exactly the tiles in the seven-day window, the same as no `since` |
| `TilesEndpoint.SinceAfterEveryUpdate` | src/routes/api/tiles/+server.ts:18-29 | A usable `since` at or after every `updated_at` returns nothing |
| `TilesEndpoint.NothingInWindow` | src/routes/api/tiles/+server.ts:12-16 | With no tile in the window the listing is empty, whatever `since` is |
| `TilesEndpoint.ListResponse` | src/routes/api/tiles/+server.ts:6-34 | Status 200 exactly when the store answers, and the reply is then the JSON listing. The body then holds only stored tiles in the window, and with a usable `since` only tiles with `updated_at > since`. Every stored tile meeting those conditions is listed, with as many copies as the store holds. Otherwise the reply is 500 "Failed to fetch tiles" |
| `TilesEndpoint.CreateFailure` | src/routes/api/tiles/+server.ts:89-96 | A thrown error with code `P2002` gives 409; every other thrown error gives 500 |
| `TilesEndpoint.CreateResponse` | src/routes/api/tiles/+server.ts:38-98 | The handler as written. The status is one of 201, 400, 409 or 500. A 400 happens exactly when the chain as written fails, and carries that reason's message. Otherwise the record, possibly with an invalid date, goes to the store. A stored tile gives 201 with that tile, and a thrown error gives `CreateFailure` of its code, so 409 happens exactly for `P2002`. A body that is not JSON gives 500 |
| `TilesEndpoint.CreateResponseIntended` | src/routes/api/tiles/+server.ts:38-98 | The corrected handler. 400 happens exactly when `Validation.Validate` fails, including every date that does not parse. 201 happens exactly when validation passes and the store returns a tile, and the stored record then has a valid date. 409 happens exactly for a valid record refused with `P2002` |
| `TilesEndpoint.CreateHandlersAgreeOnParsedDates` | src/routes/api/tiles/+server.ts:63-74 | When the target date parses, or the body is not JSON, the handler as written and the corrected one give the same response |
| `TilesEndpoint.CreateHandlersDifferOnUnparsedDates` | src/routes/api/tiles/+server.ts:63-96 | When every field check passes but the date does not parse, the corrected handler answers 400 "Target date must be in the future". The handler as written admits the body, hands the store a record with an invalid date, and never answers 400 |
| `CronEndpoint.DeletionSplit` | src/routes/api/cron/+server.ts:21-27 | What a delete keeps is part of the input, what it removes is expired, and the removed count is the input length minus the kept length |
| `CronEndpoint.DeleteExpired` | src/routes/api/cron/+server.ts:21-27 | Survivors are exactly the input tiles with `target_date >= cutoff`, each with all its copies. They are unmodified and keep their relative order, everything removed was expired, and the count is the input length minus the survivor length |
| `CronEndpoint.RunCleanup` | src/routes/api/cron/+server.ts:8-35 | A header other than exactly `Bearer <secret>` gives 401 and leaves the tiles unchanged. A store failure gives 500 and leaves them unchanged. An authorized run answers 200 and reports the number deleted. It keeps every copy of each unexpired tile and no expired tile, in order |
| `CronEndpoint.Authorized` | src/routes/api/cron/+server.ts:10-11 | A run is authorized exactly when the header is present, starts with `Bearer `, and the rest equals the secret; a missing header never authorizes |
| `CronEndpoint.DeletedMessage` | src/routes/api/cron/+server.ts:29 | The message is `Successfully deleted `, the count, then ` old tiles.`, and the part between is exactly the count's decimal rendering (digits, no leading zero), which reads back as the count |
| `CronEndpoint.CleanupIdempotent` | src/routes/api/cron/+server.ts:21-27 | A second delete with the same cutoff removes 0 tiles and leaves the tiles unchanged |
| `CronEndpoint.SecondRunDeletesNothing` | src/routes/api/cron/+server.ts:10-29 | Two authorized runs in a row: the second reports "Successfully deleted 0 old tiles." and changes nothing |
| `CronEndpoint.SurvivorsAreListWindow` | src/routes/api/cron/+server.ts:21-27 | The tiles a cleanup keeps are exactly what the listing returns without `since` for the same cutoff |
| `CronEndpoint.DeletedMessageInjective` | src/routes/api/cron/+server.ts:29 | The success message determines the deleted count |

## Left out

- Clocks and calendar arithmetic are not modelled. `new Date()`, `setDate(-7)`
  and `setFullYear(+1)` are left out, along with time zones and 29 February.
  `now`, `oneYearFromNow` and the cutoff are parameters. The listing and the
  cleanup each read their own clock; the model only relates them for a shared
  cutoff.
- Date parsing (`new Date(text)`) is not modelled. Its result is carried in
  `DateParam` as an input.
- The store (Prisma `create`, `findMany`, `deleteMany`) is left abstract. The
  coordinate-pair uniqueness constraint it enforces is not modelled. `create`
  is a function from the record to a stored tile or a thrown error code. What
  it does with a record whose date is invalid is left to that function, so the
  model of the handler as written does not fix the status for such a body
  beyond "not 400". The
  listing store is an optional sequence. For the cleanup, the store is a
  sequence plus a failure flag, and a failed delete removes nothing.
- The schema defaults (`id`, `likes = 0`, `created_at`, `updated_at`) belong to
  the store and are not modelled. The created tile is whatever the store
  returns.
- `findMany` promises no order. The model returns matches in stored order, so
  its order guarantee is stronger than the store's.
- HTTP and JSON plumbing is left out, except for status and message: response
  headers, JSON serialisation of tiles, `console.error`, and where the cron
  secret comes from. A body that is not JSON is modelled only as "the
  handler threw without a code".
- Text is modelled as well-formed Unicode. A Dafny `char` is a Unicode scalar
  value, so a title, colour or date text that holds an unpaired surrogate
  (which `request.json()` accepts from `"\ud800"`) cannot be written in the
  model. `Text.Utf16Length` is JavaScript's `length` only for well-formed text.
- JavaScript loose typing is left out. The model does not cover `null`
  coordinates passing the `=== undefined` test, non-string titles or colours,
  or fractional and string coordinates. Fields have fixed types instead.
- `GET /api/tiles/:id`, `POST /api/tiles/:id/like` and the page loader
  (`src/routes/+page.server.ts`) are outside the modelled core. They are a
  single lookup or increment against the store, with error mapping.
- `vite.config.ts` holds build settings only.

## Findings

| source | as written | input that shows it | evidently intended | confidence | as-written member | corrected member |
|---|---|---|---|---|---|---|
| src/routes/api/tiles/+server.ts:68-74 | The date checks are `targetDate <= now` and then `targetDate > oneYearFromNow` | An otherwise valid body with `target_date: "next friday"`: `new Date` gives `NaN`, both comparisons are false, and the invalid date goes to the store, so the reply depends on what the store throws (500 rather than 400) | An unparseable date is refused with 400 as not in the future, i.e. the check reads `!(targetDate > now)` | medium, not executed | `TilesEndpoint.CreateHandlersDifferOnUnparsedDates` | `TilesEndpoint.CreateResponseIntended` |

=== FILE: cron_endpoint.dfy ===
/** `GET /api/cron`: the scheduled cleanup. A bearer-token gate, then one
    `deleteMany` of every tile whose target date is before the cutoff, and a
    message reporting how many were deleted. */
module CronEndpoint {
  import opened Wrappers
  import opened Seqs
  import opened Text
  import opened Tiles
  import TilesEndpoint

  const BearerScheme: string := "Bearer "

  /** The `authorization` header must equal `Bearer <secret>` exactly; a missing
      header (`null`) never does. */
  predicate Authorized(header: Option<string>, secret: string)
    ensures header.None? ==> !Authorized(header, secret)
    ensures Authorized(header, secret) <==>
      && header.Some?
      && BearerScheme <= header.value
      && header.value[|BearerScheme|..] == secret
  {
    assert header.Some? && BearerScheme <= header.value ==>
      header.value == BearerScheme + header.value[|BearerScheme|..];
    header == Some(BearerScheme + secret)
  }

  /** The result of `deleteMany`: the tiles left in the store and the `count` it reports. */
  datatype Deletion = Deletion(remaining: seq<Tile>, count: nat)

  /** The predicate of the delete, `target_date < cutoff`. */
  function ExpiredAt(cutoff: int): Tile -> bool
  {
    t => Expired(t, cutoff)
  }

  /** Its negation: the tiles a delete leaves in place. */
  function LiveAt(cutoff: int): Tile -> bool
  {
    t => !Expired(t, cutoff)
  }

  /** The tiles a delete leaves are a sub-multiset of the input, and everything
      it takes away is expired. */
  lemma {:induction false} DeletionSplit(tiles: seq<Tile>, cutoff: int)
    ensures multiset(Filter(tiles, LiveAt(cutoff))) <= multiset(tiles)
    ensures forall t :: t in multiset(tiles) - multiset(Filter(tiles, LiveAt(cutoff))) ==> Expired(t, cutoff)
    ensures |Filter(tiles, ExpiredAt(cutoff))| == |tiles| - |Filter(tiles, LiveAt(cutoff))|
  {
    var kept := Filter(tiles, LiveAt(cutoff));
    var gone := Filter(tiles, ExpiredAt(cutoff));
    FilterPartition(tiles, LiveAt(cutoff), ExpiredAt(cutoff));
    assert multiset(tiles) - multiset(kept) == multiset(gone);
    forall t | t in multiset(gone) ensures Expired(t, cutoff) {
      assert t in gone;
    }
  }

  /** `deleteMany` with `target_date < cutoff`. */
  function DeleteExpired(tiles: seq<Tile>, cutoff: int): (d: Deletion)
    ensures forall i :: 0 <= i < |d.remaining| ==>
      d.remaining[i] in tiles && !Expired(d.remaining[i], cutoff)
    ensures forall i :: 0 <= i < |tiles| && !Expired(tiles[i], cutoff) ==> tiles[i] in d.remaining
    ensures IsSubsequence(d.remaining, tiles)
    ensures multiset(d.remaining) <= multiset(tiles)
    ensures forall t :: t in multiset(tiles) - multiset(d.remaining) ==> Expired(t, cutoff)
    ensures d.count == |tiles| - |d.remaining|
    ensures forall t :: multiset(d.remaining)[t] == if Expired(t, cutoff) then 0 else multiset(tiles)[t]
  {
    DeletionSplit(tiles, cutoff);
    FilterMultiplicity(tiles, LiveAt(cutoff));
    FilterIsSubsequence(tiles, LiveAt(cutoff));
    Deletion(Filter(tiles, LiveAt(cutoff)), |Filter(tiles, ExpiredAt(cutoff))|)
  }

  /** `Successfully deleted <count> old tiles.` */
  function DeletedMessage(count: nat): (m: string)
    ensures |m| > |DeletedPrefix| + |DeletedSuffix|
    ensures m[..|DeletedPrefix|] == DeletedPrefix
    ensures m[|m| - |DeletedSuffix|..] == DeletedSuffix
    ensures m[|DeletedPrefix|..|m| - |DeletedSuffix|] == Decimal(count)
    ensures ParseDecimal(m[|DeletedPrefix|..|m| - |DeletedSuffix|]) == count
  {
    var m := DeletedPrefix + Decimal(count) + DeletedSuffix;
    assert m[|DeletedPrefix|..|m| - |DeletedSuffix|] == Decimal(count);
    DecimalRoundTrip(count);
    m
  }

  const DeletedPrefix: string := "Successfully deleted "
  const DeletedSuffix: string := " old tiles."

  /** What one run leaves in the store, and what it answers. */
  datatype CronRun = CronRun(tiles: seq<Tile>, response: Response<()>)

  /** One run of the job. `storeFails` says that `deleteMany` threw, in which case
      nothing was deleted (the delete is a single statement). */
  function RunCleanup(authorization: Option<string>, secret: string, tiles: seq<Tile>,
                      cutoff: int, storeFails: bool): (run: CronRun)
    ensures !Authorized(authorization, secret) ==>
      run == CronRun(tiles, Message(401, "Unauthorized"))
    ensures Authorized(authorization, secret) && storeFails ==>
      run == CronRun(tiles, Message(500, "Failed to delete old tiles"))
    ensures Authorized(authorization, secret) && !storeFails ==>
      && |run.tiles| <= |tiles|
      && run.response == Message(200, DeletedMessage(|tiles| - |run.tiles|))
      && (forall i :: 0 <= i < |run.tiles| ==> run.tiles[i] in tiles && !Expired(run.tiles[i], cutoff))
      && (forall i :: 0 <= i < |tiles| && !Expired(tiles[i], cutoff) ==> tiles[i] in run.tiles)
      && IsSubsequence(run.tiles, tiles)
      && (forall t :: multiset(run.tiles)[t] == if Expired(t, cutoff) then 0 else multiset(tiles)[t])
  {
    if !Authorized(authorization, secret) then CronRun(tiles, Message(401, "Unauthorized"))
    else if storeFails then CronRun(tiles, Message(500, "Failed to delete old tiles"))
    else
      var d := DeleteExpired(tiles, cutoff);
      CronRun(d.remaining, Message(200, DeletedMessage(d.count)))
  }

  /** A second cleanup with the same cutoff deletes nothing and changes nothing. */
  lemma CleanupIdempotent(tiles: seq<Tile>, cutoff: int)
    ensures DeleteExpired(DeleteExpired(tiles, cutoff).remaining, cutoff)
      == Deletion(DeleteExpired(tiles, cutoff).remaining, 0)
  {
    var d := DeleteExpired(tiles, cutoff);
    FilterKeepsAll(d.remaining, LiveAt(cutoff));
  }

  /** Two authorized runs in a row: the second reports 0 deletions and leaves the
      tiles as the first left them. */
  lemma SecondRunDeletesNothing(authorization: Option<string>, secret: string,
                                tiles: seq<Tile>, cutoff: int)
    requires Authorized(authorization, secret)
    ensures
      var first := RunCleanup(authorization, secret, tiles, cutoff, false);
      RunCleanup(authorization, secret, first.tiles, cutoff, false)
        == CronRun(first.tiles, Message(200, DeletedMessage(0)))
  {
    CleanupIdempotent(tiles, cutoff);
  }

  /** The tiles a cleanup keeps are exactly what the listing shows without
      `since` for the same cutoff: deletion is the complement of the window. */
  lemma SurvivorsAreListWindow(tiles: seq<Tile>, cutoff: int)
    ensures DeleteExpired(tiles, cutoff).remaining == TilesEndpoint.ListTiles(tiles, cutoff, Absent)
  {
    TilesEndpoint.UnusableSinceIgnored(tiles, cutoff, Absent);
    FilterExtensional(tiles, LiveAt(cutoff), t => InListWindow(t, cutoff));
  }

  /** The message names the count exactly: different counts give different messages. */
  lemma DeletedMessageInjective(m: nat, n: nat)
    requires DeletedMessage(m) == DeletedMessage(n)
    ensures m == n
  {
  }
}

=== FILE: seqs.dfy ===
/** Order-preserving filtering of sequences: the shape of both the listing query
    (`findMany` with a `where` clause) and the cleanup (`deleteMany`), which keeps
    what the delete predicate does not match. */
module Seqs {

  /** The elements of `s` that satisfy `p`, in their original order. */
  function Filter<T>(s: seq<T>, p: T -> bool): (r: seq<T>)
    ensures |r| <= |s|
    ensures forall i :: 0 <= i < |r| ==> p(r[i]) && r[i] in s
    ensures forall i :: 0 <= i < |s| && p(s[i]) ==> s[i] in r
  {
    if |s| == 0 then []
    else
      var rest := Filter(s[1..], p);
      assert forall i :: 1 <= i < |s| ==> s[i] == s[1..][i - 1];
      if p(s[0]) then [s[0]] + rest else rest
  }

  /** `a` can be obtained from `b` by deleting elements, without reordering. */
  predicate IsSubsequence<T(==)>(a: seq<T>, b: seq<T>)
    decreases |b|
  {
    if |a| == 0 then true
    else if |b| == 0 then false
    else if a[0] == b[0] then IsSubsequence(a[1..], b[1..])
    else IsSubsequence(a, b[1..])
  }

  /** Filtering never reorders: the kept elements appear as a subsequence of the input. */
  lemma {:induction false} FilterIsSubsequence<T>(s: seq<T>, p: T -> bool)
    ensures IsSubsequence(Filter(s, p), s)
  {
    if |s| > 0 {
      FilterIsSubsequence(s[1..], p);
      var rest := Filter(s[1..], p);
      if p(s[0]) {
        assert Filter(s, p) == [s[0]] + rest;
        assert ([s[0]] + rest)[1..] == rest;
      } else {
        SubsequenceOfTail(rest, s);
      }
    }
  }

  /** A subsequence of the tail of `b` is a subsequence of `b`. */
  lemma {:induction false} SubsequenceOfTail<T>(a: seq<T>, b: seq<T>)
    requires |b| > 0
    requires IsSubsequence(a, b[1..])
    ensures IsSubsequence(a, b)
    decreases |b|, 0
  {
    if |a| > 0 && a[0] == b[0] {
      SubsequenceDropHead(a, b[1..]);
    }
  }

  /** Dropping the first element of a subsequence leaves a subsequence. */
  lemma {:induction false} SubsequenceDropHead<T>(a: seq<T>, c: seq<T>)
    requires |a| > 0
    requires IsSubsequence(a, c)
    ensures IsSubsequence(a[1..], c)
    decreases |c|, 1
  {
    if a[0] == c[0] {
      SubsequenceOfTail(a[1..], c);
    } else {
      SubsequenceDropHead(a, c[1..]);
      SubsequenceOfTail(a[1..], c);
    }
  }

  /** Filtering by `p` and by its complement `q` splits `s` into two parts whose
      elements, with multiplicity, make up `s` exactly. */
  lemma {:induction false} FilterPartition<T>(s: seq<T>, p: T -> bool, q: T -> bool)
    requires forall x :: q(x) == !p(x)
    ensures multiset(Filter(s, p)) + multiset(Filter(s, q)) == multiset(s)
    ensures |Filter(s, p)| + |Filter(s, q)| == |s|
  {
    if |s| > 0 {
      FilterPartition(s[1..], p, q);
      assert s == [s[0]] + s[1..];
      assert multiset(s) == multiset{s[0]} + multiset(s[1..]);
    }
  }

  /** Filtering keeps every copy of an element that satisfies `p` and no copy
      of one that does not. */
  lemma {:induction false} FilterMultiplicity<T>(s: seq<T>, p: T -> bool)
    ensures forall x :: multiset(Filter(s, p))[x] == if p(x) then multiset(s)[x] else 0
  {
    if |s| > 0 {
      FilterMultiplicity(s[1..], p);
      assert s == [s[0]] + s[1..];
      assert multiset(s) == multiset{s[0]} + multiset(s[1..]);
      if p(s[0]) {
        assert multiset(Filter(s, p)) == multiset{s[0]} + multiset(Filter(s[1..], p));
      }
    }
  }

  /** When every element satisfies `p`, filtering keeps the sequence unchanged. */
  lemma {:induction false} FilterKeepsAll<T>(s: seq<T>, p: T -> bool)
    requires forall i :: 0 <= i < |s| ==> p(s[i])
    ensures Filter(s, p) == s
  {
    if |s| > 0 {
      FilterKeepsAll(s[1..], p);
      assert s == [s[0]] + s[1..];
    }
  }

  /** Filtering twice by the same predicate is the same as filtering once. */
  lemma FilterIdempotent<T>(s: seq<T>, p: T -> bool)
    ensures Filter(Filter(s, p), p) == Filter(s, p)
  {
  }

  /** Filtering depends only on which elements the predicate accepts. */
  lemma {:induction false} FilterExtensional<T>(s: seq<T>, p: T -> bool, q: T -> bool)
    requires forall x :: p(x) == q(x)
    ensures Filter(s, p) == Filter(s, q)
  {
    if |s| > 0 {
      FilterExtensional(s[1..], p, q);
    }
  }
}

=== FILE: text.dfy ===
/** The two places where the handlers look at text as JavaScript sees it: the
    `length` of a string, which counts UTF-16 code units, and the decimal
    rendering of a count inside a template literal. */
module Text {

  /** Number of UTF-16 code units that encode `c`: characters beyond the Basic
      Multilingual Plane take a surrogate pair. */
  function CodeUnits(c: char): nat
  {
    if c as int > 0xFFFF then 2 else 1
  }

  /** JavaScript's `s.length`, for well-formed text (a Dafny `char` is a
      Unicode scalar value, so an unpaired surrogate cannot occur here). */
  function Utf16Length(s: string): (n: nat)
    ensures |s| <= n <= 2 * |s|
    ensures n == 0 <==> s == ""
  {
    if |s| == 0 then 0 else CodeUnits(s[0]) + Utf16Length(s[1..])
  }

  predicate IsBmp(s: string)
  {
    forall i :: 0 <= i < |s| ==> s[i] as int <= 0xFFFF
  }

  /** For text inside the Basic Multilingual Plane (ASCII included), the
      JavaScript length is the number of characters. */
  lemma {:induction false} BmpLength(s: string)
    requires IsBmp(s)
    ensures Utf16Length(s) == |s|
  {
    if |s| > 0 {
      assert IsBmp(s[1..]) by {
        forall i | 0 <= i < |s[1..]| ensures s[1..][i] as int <= 0xFFFF {
          assert s[1..][i] == s[i + 1];
        }
      }
      BmpLength(s[1..]);
    }
  }

  /** `n` copies of `c`. */
  function Repeat(c: char, n: nat): (s: string)
    ensures |s| == n
    ensures forall i :: 0 <= i < n ==> s[i] == c
  {
    if n == 0 then "" else [c] + Repeat(c, n - 1)
  }

  function DigitChar(d: nat): char
    requires d < 10
  {
    "0123456789"[d]
  }

  function DigitValue(c: char): nat
  {
    if '0' <= c <= '9' then c as nat - '0' as nat else 0
  }

  /** The decimal notation JavaScript produces for a non-negative integer
      count below 2^53 (larger numbers are not exact, and from 10^21 on
      JavaScript switches to exponent notation). */
  function Decimal(n: nat): (s: string)
    ensures |s| > 0
    ensures forall i :: 0 <= i < |s| ==> '0' <= s[i] <= '9'
    ensures |s| > 1 ==> s[0] != '0'
  {
    if n < 10 then [DigitChar(n)] else Decimal(n / 10) + [DigitChar(n % 10)]
  }

  /** Reads a string of decimal digits back as a number. */
  function ParseDecimal(s: string): nat
  {
    if |s| == 0 then 0 else 10 * ParseDecimal(s[..|s| - 1]) + DigitValue(s[|s| - 1])
  }

  /** The rendered count reads back as the count, so a message carrying it
      reports the number exactly. */
  lemma {:induction false} DecimalRoundTrip(n: nat)
    ensures ParseDecimal(Decimal(n)) == n
  {
    if n >= 10 {
      DecimalRoundTrip(n / 10);
      var s := Decimal(n);
      assert s[..|s| - 1] == Decimal(n / 10);
    }
  }

  /** Distinct counts are rendered differently. */
  lemma DecimalInjective(m: nat, n: nat)
    requires Decimal(m) == Decimal(n)
    ensures m == n
  {
    DecimalRoundTrip(m);
    DecimalRoundTrip(n);
  }
}

=== FILE: tiles.dfy ===
/** The tile record, the date parameters the handlers parse, the JSON
    responses they send, and the seven-day window both the listing and the
    cleanup are computed against. */
module Tiles {
  import opened Wrappers

  /** A countdown tile as the store holds it. Timestamps are milliseconds
      since the epoch. */
  datatype Tile = Tile(
    id: string,
    title: string,
    targetDate: int,
    coordX: int,
    coordY: int,
    color: string,
    likes: nat,
    createdAt: int,
    updatedAt: int)

  /** A date that arrives as text: in the request body (`target_date`) or in
      the query string (`since`). `Absent` is `undefined` or `null`; `time` is
      what JavaScript's `new Date(raw).getTime()` yields, `None` when that is
      `NaN`. Date parsing itself is not modelled. */
  datatype DateParam = Absent | Given(raw: string, time: Option<int>)
  {
    /** JavaScript truthiness of the raw value: present and not the empty string. */
    predicate Supplied()
    {
      Given? && raw != ""
    }
  }

  /** A JSON response: a payload with a status, or `{ message }` with a status. */
  datatype Response<+T> = Json(status: nat, body: T) | Message(status: nat, text: string)
  {
    function Status(): nat
    {
      match this
      case Json(s, _) => s
      case Message(s, _) => s
    }
  }

  /** Kept by the listing's `target_date >= cutoff` condition. */
  predicate InListWindow(t: Tile, cutoff: int)
  {
    t.targetDate >= cutoff
  }

  /** Matched by the cleanup's `target_date < cutoff` condition. */
  predicate Expired(t: Tile, cutoff: int)
  {
    t.targetDate < cutoff
  }

  /** The cleanup deletes exactly the tiles the listing no longer shows. */
  lemma ExpiredIsOutsideListWindow(t: Tile, cutoff: int)
    ensures Expired(t, cutoff) <==> !InListWindow(t, cutoff)
  {
  }
}

=== FILE: tiles_endpoint.dfy ===
/** `GET /api/tiles` (the listing with its seven-day window and optional
    incremental `since`) and `POST /api/tiles` (validation, the store call and
    the mapping of what the store throws to a status). */
module TilesEndpoint {
  import opened Wrappers
  import opened Seqs
  import opened Tiles
  import opened Validation

  // ---------------------------------------------------------------------------
  // Listing

  /** The `where` clause of the listing as an explicit value: the lower bound on
      `target_date`, and the optional strict lower bound on `updated_at`. */
  datatype TileQuery = TileQuery(targetDateFrom: int, updatedAfter: Option<int>)

  /** `since` is usable when it is supplied (truthy) and parses to a time. */
  predicate UsableSince(since: DateParam)
  {
    since.Supplied() && since.time.Some?
  }

  /** The query built by the handler; an unusable `since` adds no condition. */
  function BuildQuery(cutoff: int, since: DateParam): TileQuery
  {
    if UsableSince(since) then TileQuery(cutoff, since.time)
    else TileQuery(cutoff, None)
  }

  /** A tile satisfies the query's `where` clause. */
  predicate Matches(q: TileQuery, t: Tile)
  {
    && InListWindow(t, q.targetDateFrom)
    && (q.updatedAfter.Some? ==> t.updatedAt > q.updatedAfter.value)
  }

  /** What `findMany` returns for the query: the matching tiles. The store
      promises no order; the model keeps the stored order. */
  function ListTiles(tiles: seq<Tile>, cutoff: int, since: DateParam): (r: seq<Tile>)
    ensures forall i :: 0 <= i < |r| ==> r[i] in tiles && InListWindow(r[i], cutoff)
    ensures forall i :: 0 <= i < |r| ==> UsableSince(since) ==> r[i].updatedAt > since.time.value
    ensures forall i :: 0 <= i < |tiles| ==>
      InListWindow(tiles[i], cutoff) && (UsableSince(since) ==> tiles[i].updatedAt > since.time.value)
      ==> tiles[i] in r
    ensures IsSubsequence(r, tiles)
    ensures forall t :: multiset(r)[t] ==
                        if InListWindow(t, cutoff) && (UsableSince(since) ==> t.updatedAt > since.time.value)
                        then multiset(tiles)[t] else 0
  {
    var q := BuildQuery(cutoff, since);
    FilterIsSubsequence(tiles, t => Matches(q, t));
    FilterMultiplicity(tiles, t => Matches(q, t));
    Filter(tiles, t => Matches(q, t))
  }

  /** With `since` absent, empty or unparseable, the listing is exactly the
      seven-day window. */
  lemma UnusableSinceIgnored(tiles: seq<Tile>, cutoff: int, since: DateParam)
    requires !UsableSince(since)
    ensures ListTiles(tiles, cutoff, since) == Filter(tiles, t => InListWindow(t, cutoff))
    ensures ListTiles(tiles, cutoff, since) == ListTiles(tiles, cutoff, Absent)
  {
    var q := BuildQuery(cutoff, since);
    FilterExtensional(tiles, t => Matches(q, t), t => InListWindow(t, cutoff));
    var q0 := BuildQuery(cutoff, Absent);
    FilterExtensional(tiles, t => Matches(q0, t), t => InListWindow(t, cutoff));
  }

  /** A `since` at or after every update returns nothing. */
  lemma SinceAfterEveryUpdate(tiles: seq<Tile>, cutoff: int, since: DateParam)
    requires UsableSince(since)
    requires forall i :: 0 <= i < |tiles| ==> tiles[i].updatedAt <= since.time.value
    ensures ListTiles(tiles, cutoff, since) == []
  {
  }

  /** With no tile inside the window the listing is empty, whatever `since` is. */
  lemma NothingInWindow(tiles: seq<Tile>, cutoff: int, since: DateParam)
    requires forall i :: 0 <= i < |tiles| ==> !InListWindow(tiles[i], cutoff)
    ensures ListTiles(tiles, cutoff, since) == []
  {
  }

  /** The listing response; `store` is `None` when the store throws. */
  function ListResponse(store: Option<seq<Tile>>, cutoff: int, since: DateParam): (r: Response<seq<Tile>>)
    ensures r.Status() == 200 <==> store.Some?
    ensures store.Some? ==> r.Json? && r.status == 200
    ensures r.Status() != 200 ==> r == Message(500, "Failed to fetch tiles")
    ensures r.Json? ==> forall i :: 0 <= i < |r.body| ==> r.body[i] in store.value && InListWindow(r.body[i], cutoff)
    ensures r.Json? ==> forall i :: 0 <= i < |r.body| ==>
      UsableSince(since) ==> r.body[i].updatedAt > since.time.value
    ensures r.Json? ==> forall i :: 0 <= i < |store.value| ==>
      InListWindow(store.value[i], cutoff)
      && (UsableSince(since) ==> store.value[i].updatedAt > since.time.value)
      ==> store.value[i] in r.body
    ensures r.Json? ==>
      forall t :: multiset(r.body)[t] ==
                  if InListWindow(t, cutoff) && (UsableSince(since) ==> t.updatedAt > since.time.value)
                  then multiset(store.value)[t] else 0
  {
    match store
    case None => Message(500, "Failed to fetch tiles")
    case Some(tiles) => Json(200, ListTiles(tiles, cutoff, since))
  }

  // ---------------------------------------------------------------------------
  // Creation

  /** The error code the store uses for a unique-constraint violation (here, an
      occupied coordinate pair). */
  const UniqueViolationCode: string := "P2002"

  /** What `create` does with the record: returns the stored tile or throws an
      error carrying an optional `code`. */
  datatype StoreOutcome = Stored(tile: Tile) | Threw(code: Option<string>)

  /** The `catch` block: a unique-constraint violation is a conflict, anything
      else thrown is a server error. */
  function CreateFailure(code: Option<string>): (r: Response<Tile>)
    ensures r.Message?
    ensures r.Status() == 409 <==> code == Some(UniqueViolationCode)
    ensures r.Status() != 409 ==> r.Status() == 500
  {
    if code == Some(UniqueViolationCode) then Message(409, "Coordinates already taken")
    else Message(500, "Failed to create tile")
  }

  /** The body passes every check as the handler writes them, so its record
      goes to the store. */
  predicate Admitted(body: Option<TileInput>, now: int, oneYearFromNow: int)
  {
    body.Some? && FirstFailureAsWritten(body.value, now, oneYearFromNow).None?
  }

  /** `POST /api/tiles` as written. `body` is `None` when the body is not JSON
      (that error carries no code); `create` is the store. A target date that
      does not parse passes the checks and reaches the store as an invalid date. */
  function CreateResponse(body: Option<TileInput>, now: int, oneYearFromNow: int,
                          create: NewTile -> StoreOutcome): (r: Response<Tile>)
    ensures r.Status() in {201, 400, 409, 500}
    ensures r.Status() == 400 <==>
      body.Some? && FirstFailureAsWritten(body.value, now, oneYearFromNow).Some?
    ensures r.Status() == 400 ==>
      r == Message(400, FirstFailureAsWritten(body.value, now, oneYearFromNow).value.Message())
    ensures r.Status() == 201 <==>
      Admitted(body, now, oneYearFromNow) && create(Record(body.value)).Stored?
    ensures r.Status() == 201 ==> r == Json(201, create(Record(body.value)).tile)
    ensures r.Status() == 409 <==>
      Admitted(body, now, oneYearFromNow) && create(Record(body.value)) == Threw(Some(UniqueViolationCode))
    ensures Admitted(body, now, oneYearFromNow) && create(Record(body.value)).Threw? ==>
      r == CreateFailure(create(Record(body.value)).code)
    ensures body.None? ==> r == Message(500, "Failed to create tile")
  {
    match body
    case None => CreateFailure(None)
    case Some(input) =>
      match FirstFailureAsWritten(input, now, oneYearFromNow)
      case Some(reason) => Message(400, reason.Message())
      case None =>
        match create(Record(input))
        case Stored(tile) => Json(201, tile)
        case Threw(code) => CreateFailure(code)
  }

  /** `POST /api/tiles` with the intended date check: a date that does not parse
      is refused with 400, so the store only ever sees a valid date. */
  function CreateResponseIntended(body: Option<TileInput>, now: int, oneYearFromNow: int,
                                  create: NewTile -> StoreOutcome): (r: Response<Tile>)
    ensures r.Status() in {201, 400, 409, 500}
    ensures r.Status() == 400 <==> body.Some? && Validate(body.value, now, oneYearFromNow).Failure?
    ensures r.Status() == 400 ==>
      r == Message(400, Validate(body.value, now, oneYearFromNow).error.Message())
    ensures body.Some? && body.value.targetDate.Given? && body.value.targetDate.time.None? ==>
      r.Status() == 400
    ensures r.Status() == 201 <==>
      && body.Some?
      && Validate(body.value, now, oneYearFromNow).Success?
      && create(Validate(body.value, now, oneYearFromNow).value).Stored?
    ensures r.Status() == 201 ==>
      && Validate(body.value, now, oneYearFromNow).value.targetDate.Some?
      && r == Json(201, create(Validate(body.value, now, oneYearFromNow).value).tile)
    ensures r.Status() == 409 <==>
      && body.Some?
      && Validate(body.value, now, oneYearFromNow).Success?
      && create(Validate(body.value, now, oneYearFromNow).value) == Threw(Some(UniqueViolationCode))
  {
    match body
    case None => CreateFailure(None)
    case Some(input) =>
      match Validate(input, now, oneYearFromNow)
      case Failure(reason) => Message(400, reason.Message())
      case Success(record) =>
        match create(record)
        case Stored(tile) => Json(201, tile)
        case Threw(code) => CreateFailure(code)
  }

  /** On bodies whose target date parses (or that are not JSON), the handler as
      written and the intended one answer the same. */
  lemma CreateHandlersAgreeOnParsedDates(body: Option<TileInput>, now: int, oneYearFromNow: int,
                                         create: NewTile -> StoreOutcome)
    requires body.Some? && body.value.targetDate.Given? ==> body.value.targetDate.time.Some?
    ensures CreateResponse(body, now, oneYearFromNow, create)
      == CreateResponseIntended(body, now, oneYearFromNow, create)
  {
  }

  /** When every field check passes but the target date does not parse, the
      handlers differ: the intended one answers 400, while the one as written
      hands the store a record with an invalid date and answers whatever the
      store's outcome maps to, never 400. */
  lemma CreateHandlersDifferOnUnparsedDates(body: Option<TileInput>, now: int, oneYearFromNow: int,
                                            create: NewTile -> StoreOutcome)
    requires body.Some? && FieldFailure(body.value).None? && body.value.targetDate.time.None?
    ensures CreateResponseIntended(body, now, oneYearFromNow, create)
      == Message(400, NotInFuture.Message())
    ensures Admitted(body, now, oneYearFromNow)
    ensures Record(body.value).targetDate.None?
    ensures CreateResponse(body, now, oneYearFromNow, create).Status() != 400
  {
  }
}

=== FILE: validation.dfy ===
/** The field checks of `POST /api/tiles`: an ordered chain in which the first
    failing check decides the rejection message, and on success the five-field
    record that is handed to the store. */
module Validation {
  import opened Wrappers
  import opened Text
  import opened Tiles

  const MaxTitleLength: nat := 50
  /** The board is a GridSize x GridSize square of cells. */
  const GridSize: int := 60

  /** The request body as destructured by the handler. `None` is `undefined`. */
  datatype TileInput = TileInput(
    title: Option<string>,
    targetDate: DateParam,
    coordX: Option<int>,
    coordY: Option<int>,
    color: Option<string>)

  /** The data the handler passes to the store's `create`: these five fields
      and nothing else. The target date is the JavaScript `Date` built from the
      text, whose time is `None` when it is invalid (`NaN`). */
  datatype NewTile = NewTile(
    title: string,
    targetDate: Option<int>,
    coordX: int,
    coordY: int,
    color: string)

  /** One reason per check, listed in the order the handler runs the checks. */
  datatype Rejection =
    | MissingFields
    | TitleTooLong
    | CoordinatesOutOfRange
    | InvalidColor
    | NotInFuture
    | TooFarAhead
  {
    /** Position of the check in the chain. */
    function Rank(): nat
    {
      match this
      case MissingFields => 0
      case TitleTooLong => 1
      case CoordinatesOutOfRange => 2
      case InvalidColor => 3
      case NotInFuture => 4
      case TooFarAhead => 5
    }

    /** The `message` of the 400 response. */
    function Message(): string
    {
      match this
      case MissingFields => "Missing required fields"
      case TitleTooLong => "Title cannot exceed 50 characters"
      case CoordinatesOutOfRange => "Coordinates must be between 0 and 59"
      case InvalidColor => "Invalid color format. Must be a hex color like #RRGGBB or #RGB."
      case NotInFuture => "Target date must be in the future"
      case TooFarAhead => "Target date cannot be more than one year from now"
    }
  }

  /** JavaScript truthiness of a string field. */
  predicate Truthy(s: Option<string>)
  {
    s.Some? && s.value != ""
  }

  /** The presence check: strings must be truthy, while a coordinate only has
      to be defined, so 0 counts as present. */
  predicate FieldsPresent(i: TileInput)
    ensures FieldsPresent(i) <==>
      && i.title.Some? && Utf16Length(i.title.value) != 0
      && i.targetDate.Given? && Utf16Length(i.targetDate.raw) != 0
      && i.coordX.Some? && i.coordY.Some?
      && i.color.Some? && Utf16Length(i.color.value) != 0
  {
    && Truthy(i.title)
    && i.targetDate.Supplied()
    && i.coordX.Some?
    && i.coordY.Some?
    && Truthy(i.color)
  }

  // ---------------------------------------------------------------------------
  // The colour pattern /^#([A-Fa-f0-9]{6}|[A-Fa-f0-9]{3})$/

  predicate IsHexDigit(c: char)
  {
    '0' <= c <= '9' || 'a' <= c <= 'f' || 'A' <= c <= 'F'
  }

  /** `[A-Fa-f0-9]{n}$`: exactly `n` hex digits, then the end of the input. */
  predicate HexRunThenEnd(s: string, n: nat)
  {
    if n == 0 then |s| == 0 else |s| > 0 && IsHexDigit(s[0]) && HexRunThenEnd(s[1..], n - 1)
  }

  /** The pattern read the way the regular expression engine reads it: the
      anchor `#`, then the six-digit alternative, else the three-digit one. */
  predicate MatchesColorPattern(s: string)
    ensures MatchesColorPattern(s) <==> IsHexColor(s)
  {
    if |s| == 0 then false
    else
      HexRunThenEndMeans(s[1..], 6);
      HexRunThenEndMeans(s[1..], 3);
      assert forall i :: 1 <= i < |s| ==> s[1..][i - 1] == s[i];
      s[0] == '#' && (HexRunThenEnd(s[1..], 6) || HexRunThenEnd(s[1..], 3))
  }

  /** What the pattern means: `#` followed by exactly 3 or exactly 6 hex digits. */
  predicate IsHexColor(s: string)
  {
    && (|s| == 4 || |s| == 7)
    && s[0] == '#'
    && forall i :: 1 <= i < |s| ==> IsHexDigit(s[i])
  }

  lemma {:induction false} HexRunThenEndMeans(s: string, n: nat)
    ensures HexRunThenEnd(s, n) <==> |s| == n && forall i :: 0 <= i < |s| ==> IsHexDigit(s[i])
  {
    if n > 0 && |s| > 0 {
      HexRunThenEndMeans(s[1..], n - 1);
      assert forall i :: 1 <= i < |s| ==> s[1..][i - 1] == s[i];
    }
  }

  /** Sample colours: `#abc` and `#AABBCC` match, `#ZZZZZZ` and
      `#abcd` do not. */
  lemma ColorExamples()
    ensures MatchesColorPattern("#abc")
    ensures MatchesColorPattern("#AABBCC")
    ensures MatchesColorPattern("#aabbcc")
    ensures !MatchesColorPattern("#ZZZZZZ")
    ensures !MatchesColorPattern("#abcd")
    ensures !MatchesColorPattern("abc")
  {
  }

  // ---------------------------------------------------------------------------
  // The chain

  /** `a <= b` on a JavaScript date whose time may be `NaN` (`None`): false for `NaN`. */
  predicate JsAtMost(a: Option<int>, b: int)
  {
    a.Some? && a.value <= b
  }

  /** `a > b` on a JavaScript date whose time may be `NaN` (`None`): false for `NaN`. */
  predicate JsAfter(a: Option<int>, b: int)
  {
    a.Some? && a.value > b
  }

  /** The rule each of the four field checks enforces, stated on its own, for
      fields that are there. Date rules hold trivially here. */
  predicate FieldRule(k: Rejection, i: TileInput)
  {
    match k
    case MissingFields => FieldsPresent(i)
    case TitleTooLong => i.title.Some? ==> Utf16Length(i.title.value) <= MaxTitleLength
    case CoordinatesOutOfRange =>
      && (i.coordX.Some? ==> 0 <= i.coordX.value < GridSize)
      && (i.coordY.Some? ==> 0 <= i.coordY.value < GridSize)
    case InvalidColor => i.color.Some? ==> IsHexColor(i.color.value)
    case NotInFuture => true
    case TooFarAhead => true
  }

  /** The rule each of the two date checks enforces: a supplied date must parse
      to a time after `now` and no later than `oneYearFromNow`. */
  predicate DateRule(k: Rejection, d: DateParam, now: int, oneYearFromNow: int)
  {
    match k
    case NotInFuture => d.Given? ==> d.time.Some? && now < d.time.value
    case TooFarAhead => d.Given? && d.time.Some? ==> d.time.value <= oneYearFromNow
    case _ => true
  }

  predicate Passes(k: Rejection, i: TileInput, now: int, oneYearFromNow: int)
  {
    FieldRule(k, i) && DateRule(k, i.targetDate, now, oneYearFromNow)
  }

  /** All rules hold exactly when the field rules and the two date rules do. */
  lemma PassesByCase(i: TileInput, now: int, oneYearFromNow: int)
    ensures (forall k :: Passes(k, i, now, oneYearFromNow)) <==>
      && (forall k :: FieldRule(k, i))
      && DateRule(NotInFuture, i.targetDate, now, oneYearFromNow)
      && DateRule(TooFarAhead, i.targetDate, now, oneYearFromNow)
  {
    if (forall k :: FieldRule(k, i))
      && DateRule(NotInFuture, i.targetDate, now, oneYearFromNow)
      && DateRule(TooFarAhead, i.targetDate, now, oneYearFromNow)
    {
      forall k ensures Passes(k, i, now, oneYearFromNow) {
        match k
        case NotInFuture =>
        case TooFarAhead =>
        case _ =>
      }
    }
    if forall k :: Passes(k, i, now, oneYearFromNow) {
      forall k ensures FieldRule(k, i) {
        assert Passes(k, i, now, oneYearFromNow);
      }
      assert Passes(NotInFuture, i, now, oneYearFromNow);
      assert Passes(TooFarAhead, i, now, oneYearFromNow);
    }
  }

  /** The four checks on the raw fields, which come before any date is compared. */
  function FieldFailure(i: TileInput): (r: Option<Rejection>)
    ensures r.None? <==> forall k :: FieldRule(k, i)
    ensures r.Some? ==>
      && r.value.Rank() < 4
      && !FieldRule(r.value, i)
      && forall k: Rejection :: k.Rank() < r.value.Rank() ==> FieldRule(k, i)
  {
    if !FieldsPresent(i) then
      assert !FieldRule(MissingFields, i);
      Some(MissingFields)
    else if Utf16Length(i.title.value) > MaxTitleLength then
      assert !FieldRule(TitleTooLong, i);
      Some(TitleTooLong)
    else if i.coordX.value < 0 || i.coordX.value >= GridSize
         || i.coordY.value < 0 || i.coordY.value >= GridSize then
      assert !FieldRule(CoordinatesOutOfRange, i);
      Some(CoordinatesOutOfRange)
    else if !MatchesColorPattern(i.color.value) then
      assert !FieldRule(InvalidColor, i);
      Some(InvalidColor)
    else
      FieldRulesByCase(i);
      None
  }

  /** All field rules hold exactly when each of the four does. */
  lemma FieldRulesByCase(i: TileInput)
    ensures (forall k :: FieldRule(k, i)) <==>
      && FieldRule(MissingFields, i)
      && FieldRule(TitleTooLong, i)
      && FieldRule(CoordinatesOutOfRange, i)
      && FieldRule(InvalidColor, i)
  {
  }

  /** The record built from a body whose fields are present: each field as
      given, the target date as parsed. */
  function Record(i: TileInput): NewTile
    requires FieldsPresent(i)
  {
    NewTile(i.title.value, i.targetDate.time, i.coordX.value, i.coordY.value, i.color.value)
  }

  /** The chain as the handler writes it: `targetDate <= now`, then
      `targetDate > oneYearFromNow`. A date that does not parse is `NaN`, both
      comparisons are false, and the chain lets it through. `None` means every
      check passed. */
  function FirstFailureAsWritten(i: TileInput, now: int, oneYearFromNow: int): (r: Option<Rejection>)
    ensures r.None? ==> FieldsPresent(i) && forall k :: FieldRule(k, i)
    ensures r.None? && i.targetDate.Given? && i.targetDate.time.Some? ==>
      now < i.targetDate.time.value <= oneYearFromNow
  {
    match FieldFailure(i)
    case Some(k) => Some(k)
    case None =>
      assert FieldRule(MissingFields, i);
      if JsAtMost(i.targetDate.time, now) then Some(NotInFuture)
      else if JsAfter(i.targetDate.time, oneYearFromNow) then Some(TooFarAhead)
      else None
  }

  /** The chain with the future-date check written `!(targetDate > now)`, so that
      a date that does not parse is refused as not in the future. Returns the
      reason of the first failing check, or the record for the store. */
  function Validate(i: TileInput, now: int, oneYearFromNow: int): (r: Result<NewTile, Rejection>)
    ensures r.Success? <==> forall k :: Passes(k, i, now, oneYearFromNow)
    ensures r.Failure? ==>
      && !Passes(r.error, i, now, oneYearFromNow)
      && forall k: Rejection :: k.Rank() < r.error.Rank() ==> Passes(k, i, now, oneYearFromNow)
    ensures r.Success? ==>
      && i.targetDate.Given?
      && i.title == Some(r.value.title)
      && r.value.targetDate.Some?
      && i.targetDate.time == r.value.targetDate
      && i.coordX == Some(r.value.coordX)
      && i.coordY == Some(r.value.coordY)
      && i.color == Some(r.value.color)
  {
    match FieldFailure(i)
    case Some(k) =>
      assert !Passes(k, i, now, oneYearFromNow);
      Failure(k)
    case None =>
      assert FieldRule(MissingFields, i);
      PassesByCase(i, now, oneYearFromNow);
      if !JsAfter(i.targetDate.time, now) then Failure(NotInFuture)
      else if JsAfter(i.targetDate.time, oneYearFromNow) then Failure(TooFarAhead)
      else Success(Record(i))
  }

  // ---------------------------------------------------------------------------
  // Properties of the chain

  /** What the chain as written reports, for every body: nothing when every field
      check passes and the date does not parse, and otherwise exactly the reason
      the intended chain reports (a field failure wins over any date). */
  lemma AsWrittenVersusIntended(i: TileInput, now: int, oneYearFromNow: int)
    ensures FirstFailureAsWritten(i, now, oneYearFromNow)
      == if FieldFailure(i).None? && i.targetDate.time.None? then None
         else match Validate(i, now, oneYearFromNow)
              case Failure(k) => Some(k)
              case Success(_) => None
  {
  }

  /** The two chains differ only on dates that do not parse. */
  lemma AsWrittenAgreesOnParsedDates(i: TileInput, now: int, oneYearFromNow: int)
    requires i.targetDate.Given? ==> i.targetDate.time.Some?
    ensures FirstFailureAsWritten(i, now, oneYearFromNow)
      == match Validate(i, now, oneYearFromNow)
         case Failure(k) => Some(k)
         case Success(_) => None
  {
  }

  /** An otherwise valid request whose `target_date` does not parse passes every
      check as written, so the handler goes on to the store; the intended chain
      refuses it as not in the future. */
  lemma UnparseableDateSlipsThrough(i: TileInput, raw: string, now: int, oneYearFromNow: int)
    requires Validate(i, now, oneYearFromNow).Success?
    requires raw != ""
    ensures FirstFailureAsWritten(i.(targetDate := Given(raw, None)), now, oneYearFromNow).None?
    ensures Record(i.(targetDate := Given(raw, None))).targetDate.None?
    ensures Validate(i.(targetDate := Given(raw, None)), now, oneYearFromNow)
      == Failure(NotInFuture)
  {
  }

  /** A missing field is reported as such whatever the other fields hold. */
  lemma MissingFieldDecides(i: TileInput, now: int, oneYearFromNow: int)
    requires i.title == Some("") || i.title.None? || !i.targetDate.Supplied()
          || i.coordX.None? || i.coordY.None? || !Truthy(i.color)
    ensures Validate(i, now, oneYearFromNow) == Failure(MissingFields)
  {
  }

  /** Starting from a valid request, the title alone decides: the empty title is
      missing, a title longer than 50 UTF-16 code units is too long, anything
      else passes. */
  lemma TitleLimit(i: TileInput, t: string, now: int, oneYearFromNow: int)
    requires Validate(i, now, oneYearFromNow).Success?
    ensures Validate(i.(title := Some(t)), now, oneYearFromNow)
      == if t == "" then Failure(MissingFields)
         else if Utf16Length(t) > MaxTitleLength then Failure(TitleTooLong)
         else Success(Validate(i, now, oneYearFromNow).value.(title := t))
  {
  }

  /** A title of 50 ASCII characters is accepted, one of 51 is not. */
  lemma TitleBoundary(i: TileInput, now: int, oneYearFromNow: int)
    requires Validate(i, now, oneYearFromNow).Success?
    ensures Validate(i.(title := Some(Repeat('a', 50))), now, oneYearFromNow).Success?
    ensures Validate(i.(title := Some(Repeat('a', 51))), now, oneYearFromNow) == Failure(TitleTooLong)
  {
    BmpLength(Repeat('a', 50));
    BmpLength(Repeat('a', 51));
    TitleLimit(i, Repeat('a', 50), now, oneYearFromNow);
    TitleLimit(i, Repeat('a', 51), now, oneYearFromNow);
  }

  /** Starting from a valid request, the coordinates are accepted exactly when
      both lie in 0..59; 0 is a coordinate like any other. */
  lemma CoordinateRange(i: TileInput, x: int, y: int, now: int, oneYearFromNow: int)
    requires Validate(i, now, oneYearFromNow).Success?
    ensures Validate(i.(coordX := Some(x), coordY := Some(y)), now, oneYearFromNow)
      == if 0 <= x < GridSize && 0 <= y < GridSize
         then Success(Validate(i, now, oneYearFromNow).value.(coordX := x, coordY := y))
         else Failure(CoordinatesOutOfRange)
  {
  }

  /** Starting from a valid request, a non-empty colour is accepted exactly when
      it is `#` and 3 or 6 hex digits. */
  lemma ColorDecides(i: TileInput, c: string, now: int, oneYearFromNow: int)
    requires Validate(i, now, oneYearFromNow).Success?
    requires c != ""
    ensures Validate(i.(color := Some(c)), now, oneYearFromNow).Success? <==> IsHexColor(c)
    ensures !IsHexColor(c) ==> Validate(i.(color := Some(c)), now, oneYearFromNow) == Failure(InvalidColor)
  {
  }

  /** Starting from a valid request, a parsed target date `d` is accepted exactly
      when `now < d <= oneYearFromNow`, and refused as not in the future or as
      too far ahead otherwise. */
  lemma DateWindow(i: TileInput, raw: string, d: int, now: int, oneYearFromNow: int)
    requires Validate(i, now, oneYearFromNow).Success?
    requires raw != ""
    ensures Validate(i.(targetDate := Given(raw, Some(d))), now, oneYearFromNow)
      == if d <= now then Failure(NotInFuture)
         else if d > oneYearFromNow then Failure(TooFarAhead)
         else Success(Validate(i, now, oneYearFromNow).value.(targetDate := Some(d)))
  {
  }

  /** A request that passes every check, used to state concrete cases. */
  function SampleInput(): TileInput
  {
    TileInput(Some("Launch"), Given("2026-12-01", Some(500)), Some(59), Some(0), Some("#abc"))
  }

  /** Concrete coordinate cases with `now` = 0 and the one-year bound at 1000. */
  lemma CoordinateExamples()
    ensures Validate(SampleInput(), 0, 1000).Success?
    ensures Validate(SampleInput().(coordX := Some(60)), 0, 1000) == Failure(CoordinatesOutOfRange)
    ensures Validate(SampleInput().(coordY := Some(-1)), 0, 1000) == Failure(CoordinatesOutOfRange)
    ensures Validate(SampleInput().(coordX := Some(0)), 0, 1000).Success?
    ensures Validate(SampleInput().(coordX := None), 0, 1000) == Failure(MissingFields)
  {
    SampleIsValid();
    CoordinateRange(SampleInput(), 60, 0, 0, 1000);
    CoordinateRange(SampleInput(), 59, -1, 0, 1000);
    CoordinateRange(SampleInput(), 0, 0, 0, 1000);
  }

  /** Concrete colour and date cases with `now` = 0 and the one-year bound at 1000. */
  lemma ColorAndDateExamples()
    ensures Validate(SampleInput().(color := Some("#ZZZZZZ")), 0, 1000) == Failure(InvalidColor)
    ensures Validate(SampleInput().(color := Some("#AABBCC")), 0, 1000).Success?
    ensures Validate(SampleInput().(targetDate := Given("now", Some(0))), 0, 1000) == Failure(NotInFuture)
    ensures Validate(SampleInput().(targetDate := Given("in a year", Some(1000))), 0, 1000).Success?
    ensures Validate(SampleInput().(targetDate := Given("later", Some(1001))), 0, 1000) == Failure(TooFarAhead)
    ensures FirstFailureAsWritten(SampleInput().(targetDate := Given("soon", None)), 0, 1000).None?
  {
    SampleIsValid();
    ColorExamples();
    ColorDecides(SampleInput(), "#ZZZZZZ", 0, 1000);
    ColorDecides(SampleInput(), "#AABBCC", 0, 1000);
    DateWindow(SampleInput(), "now", 0, 0, 1000);
    DateWindow(SampleInput(), "in a year", 1000, 0, 1000);
    DateWindow(SampleInput(), "later", 1001, 0, 1000);
    UnparseableDateSlipsThrough(SampleInput(), "soon", 0, 1000);
  }

  lemma SampleIsValid()
    ensures Validate(SampleInput(), 0, 1000).Success?
  {
    SampleFieldsPass();
  }

  /** The sample body passes the four field checks. */
  lemma SampleFieldsPass()
    ensures FieldFailure(SampleInput()) == None
  {
    SamplePresent();
    SampleTitle();
    SampleColor();
    FieldRulesByCase(SampleInput());
  }

  /** Every field of the sample body is present. */
  lemma SamplePresent()
    ensures FieldRule(MissingFields, SampleInput())
  {
    var i := SampleInput();
    assert Truthy(i.title) && Truthy(i.color);
    assert i.targetDate.Supplied();
  }

  /** The sample title is within the limit. */
  lemma SampleTitle()
    ensures FieldRule(TitleTooLong, SampleInput())
  {
    BmpLength("Launch");
  }

  /** The sample colour is a hex colour. */
  lemma SampleColor()
    ensures FieldRule(InvalidColor, SampleInput())
  {
    assert IsHexColor("#abc");
  }
}

=== FILE: wrappers.dfy ===
/** Optional values and success-or-error results, used for JavaScript's
    `undefined` fields and for the validator's verdict. */
module Wrappers {

  /** `None` stands for a field that is `undefined`, or a header that is missing. */
  datatype Option<+T> = None | Some(value: T)

  /** The outcome of a check: a value, or the reason it was refused. */
  datatype Result<+T, +E> = Success(value: T) | Failure(error: E)
}
